=== FILE: README.md ===
# Tools website catalogue — a Dafny model

This project models the logic of a small client-side web site that presents a catalogue
of wedding-planning "tools" grouped into categories. The catalogue is a fixed, ordered
list of categories, each owning an ordered list of tools. Four read-only queries serve the
pages: `getTools`, `getToolById`, `getToolsByCategory` and `searchTools`. The pages add a
few pure derivations of their own:

- the tool listing chooses between the whole catalogue and a search result, then filters
  by category;
- the landing page picks the first two tools of the first three categories;
- the budget calculator keeps a list of percentage shares, with a clamped edit, a reset, a
  normalisation and the amounts the shares come to;
- the media downloader classifies a link by platform and moves a small page state through
  its parse, download and clear handlers.

Everything is written as immutable datatypes and pure functions. The dataset is an
explicit value (`Catalogue.MockData`) that the queries take as a parameter.

Files and modules:

| file | module | models |
|---|---|---|
| `wrappers.dfy` | `Wrappers` | `Option` for optional fields and lookups, `Result` for the parser's resolve/reject |
| `text.dfy` | `Text` | `includes`, ASCII `toLowerCase`, `trim` |
| `sequences.dfy` | `Sequences` | order-preserving subsequences, the shape of every `filter` and `slice` |
| `tool_types.dfy` | `ToolTypes` | `Tool`, `ToolCategory`, and how a tool card reads the optional flags |
| `catalogue.dfy` | `Catalogue` | the shipped dataset, its invariants, and the four queries |
| `tools_page.dfy` | `ToolsPage` | the listing page's source list, category filter and empty state |
| `home_page.dfy` | `HomePage` | the featured section of the landing page |
| `budget.dfy` | `Budget` | the budget calculator's state updates, in exact `real` arithmetic |
| `media_downloader.dfy` | `MediaDownloader` | platform detection, the demo parser, and the three handlers |

Two behaviours of the code are worth stating plainly:

- Search matches tags by containment (`src/services/mockService.ts:203`), the same test as
  for name and description. `Catalogue.TagMatchIsContainment` exhibits a query that lies
  inside a tag, equals none of the tags, and lies in neither the name nor the description.
  Since `includes("")` always holds, the empty query matches every tool
  (`Catalogue.SearchEmptyQuery`).
- The shipped dataset has no tool with id `budget-calculator`, so looking it up finds
  nothing (`Catalogue.UnknownIdNotFound`).

## Model

| member | source | states |
|---|---|---|
| Catalogue.MockDataWellFormed | src/services/mockService.ts:4-161 | In the shipped dataset every tool names the category holding it, category ids are distinct, and tool ids are distinct across the whole catalogue |
| Catalogue.Flatten | src/services/mockService.ts:177 | The flattened list holds exactly the tools of the categories |
| Catalogue.GetTools | src/services/mockService.ts:165-170 | `getTools` hands out the four-category dataset, which satisfies all three catalogue invariants |
| Catalogue.FindTool | src/services/mockService.ts:178 | `find` returns none exactly when no element has the id; otherwise it returns the element at the first index carrying that id |
| Catalogue.GetToolById | src/services/mockService.ts:177-179 | The result carries the requested id, is a tool of some category, and is the first such tool in category-then-tool order; none exactly when no tool of any category has the id |
| Catalogue.LookupExactWhenUnique | src/services/mockService.ts:177-178 | With globally unique tool ids, the lookup returns `t` if and only if `t` is a catalogue tool with that id |
| Catalogue.UnknownIdNotFound | src/services/mockService.ts:177-179 | With the shipped data, `budget-calculator` is not found and `json-formatter` is |
| Catalogue.GetToolsByCategory | src/services/mockService.ts:188-189 | Returns the first category with the id, tool list untouched; none exactly when no category has the id |
| Catalogue.CategoryLookupTools | src/services/mockService.ts:188-189 | In a catalogue whose tools name their category, every tool of the category found for `cid` names `cid` |
| Catalogue.AnyTagIncludes | src/services/mockService.ts:203 | The `some` over tags holds exactly when some folded tag contains the query |
| Catalogue.ToolMatches | src/services/mockService.ts:201-203 | The filter test holds exactly when the folded query lies in the folded name, the folded description, or some folded tag; with tags absent only name and description count |
| Catalogue.FilterTools | src/services/mockService.ts:200-204 | The kept tools are all relevant (soundness), every relevant tool is kept (completeness), and they keep their order (subsequence); each relevant tool is kept as many times as it occurs, every other tool not at all |
| Catalogue.Restrict | src/services/mockService.ts:198-204 | The spread copy keeps id, name, icon and description and holds exactly the category's relevant tools, in order, each as many times as in the category |
| Catalogue.SearchTools | src/services/mockService.ts:198-205 | No result category is empty; every result tool is relevant; result categories come from the source in order with metadata unchanged and tools thinned in order |
| Catalogue.RestrictAll | src/services/mockService.ts:198-204 | The `map` yields one restricted category per source category, position for position |
| Catalogue.SearchIsMapThenFilter | src/services/mockService.ts:198-205 | Search equals the `map` to restricted categories followed by the `filter` that drops the empty ones |
| Catalogue.SearchCounts | src/services/mockService.ts:198-205 | Every restricted category with tools appears in the result exactly as often as the `map` produced it, and no category without tools appears |
| Catalogue.SearchComplete | src/services/mockService.ts:198-205 | Every relevant tool of any source category appears in the result, inside that category's restriction |
| Catalogue.SearchEmptyQuery | src/services/mockService.ts:201-205 | Searching for the empty string returns the catalogue minus the categories that were already empty |
| Catalogue.TagMatchIsContainment | src/services/mockService.ts:203 | The image compressor matches "优", which lies inside its tag "优化", although no tag equals it and neither the folded name nor the folded description contains it |
| Text.Includes | src/services/mockService.ts:201-203 | The scan answers true exactly when some position of the string starts a copy of the substring |
| Text.Lower | src/services/mockService.ts:201-203 | Folding keeps the length and maps each character through the ASCII letter fold, leaving every other character alone |
| Text.IncludesEmpty | src/services/mockService.ts:201-202 | Every string includes the empty string |
| Text.Trim | src/pages/Tools/Tools.tsx:16 | The result is a slice with only whitespace outside it and no whitespace at its ends; it is empty exactly when the input is all whitespace |
| ToolTypes.RenderCard | src/components/common/ToolCard.tsx:20-66 | An absent `featured` or `isComingSoon` reads as false; a coming-soon tool shows a disabled button, any other a link to its path; absent tags show no chips |
| ToolsPage.SourceList | src/pages/Tools/Tools.tsx:16-21 | A blank query loads the whole catalogue; any other query loads the search result for the untrimmed query: only relevant tools, in non-empty categories; every relevant tool of the catalogue appears; either way the list is drawn in order from the catalogue |
| ToolsPage.UntrimmedQuerySearched | src/pages/Tools/Tools.tsx:16-17 | The search uses the query as typed: " json" is not blank, yet misses the JSON formatter that "json" finds |
| ToolsPage.FilterByCategory | src/pages/Tools/Tools.tsx:34-36 | "all" shows the list unchanged; any other id shows exactly the categories with that id, whole, in source order and with every copy kept |
| ToolsPage.KeepCategory | src/pages/Tools/Tools.tsx:36 | The filter keeps every category with the id, only those, in order, each as many times as it occurs |
| ToolsPage.FilterKeepsWholeCategories | src/pages/Tools/Tools.tsx:36 | Every displayed category is a source category with its tool list untouched |
| ToolsPage.EmptyExactlyWhenSelectionAbsent | src/pages/Tools/Tools.tsx:104-112 | For any selection other than "all", after loading, the "no tools found" panel shows exactly when the selected id is absent from the loaded list |
| HomePage.FeaturedCategories | src/pages/Home/Home.tsx:16 | The featured categories are the first min(3, n) categories, in order |
| HomePage.Leading | src/pages/Home/Home.tsx:29 | A category contributes its first min(2, n) tools, in order |
| HomePage.ToolsToShow | src/pages/Home/Home.tsx:28-30 | At most two tools per featured category; exactly the leading tools of the featured categories; an in-order subsequence of their tools; empty exactly when every featured category is empty |
| HomePage.ToolsToShowConcatenates | src/pages/Home/Home.tsx:28-30 | The tools shown are the featured categories' leading tools concatenated in category order, repeats included, as `flatMap` gives them |
| HomePage.FeaturedToolsBounds | src/pages/Home/Home.tsx:14-30 | At most six tools are shown, each among the first two of one of the first three categories; none exactly when those categories are empty |
| HomePage.ShippedFeaturedTools | src/pages/Home/Home.tsx:28-30 | With the shipped data the section lists json-formatter, base64-encoder, image-compressor, image-converter, color-picker, regex-tester |
| Budget.CurrentTotalBounds | src/pages/Tools/BudgetCalculator.tsx:123 | With every share in [0, 100], `currentTotal` is at least each share and at most 100 times the number of rows |
| Budget.Clamp | src/pages/Tools/BudgetCalculator.tsx:98 | The stored percentage lies in [0, 100], equals the input when it is in range, and is 0 or 100 when the input is below or above |
| Budget.UpdateCategoryPercentage | src/pages/Tools/BudgetCalculator.tsx:94-102 | Same length; rows with the id get the clamped percentage and nothing else changes in them; every other row is unchanged |
| Budget.UpdateKeepsShape | src/pages/Tools/BudgetCalculator.tsx:95-101 | Edited rows hold a percentage in [0, 100] and every row differs from before at most in its percentage |
| Budget.UpdateUnknownIdIsNoOp | src/pages/Tools/BudgetCalculator.tsx:96-100 | An update for an id no row carries leaves the list unchanged |
| Budget.UpdateIdempotent | src/pages/Tools/BudgetCalculator.tsx:94-102 | Repeating an update has no further effect |
| Budget.UpdatesCommute | src/pages/Tools/BudgetCalculator.tsx:94-102 | Updates of two different ids can be applied in either order |
| Budget.UpdateChangesTotal | src/pages/Tools/BudgetCalculator.tsx:95-101 | With distinct row ids, an update moves the total by exactly the edited row's change |
| Budget.CalculateAmounts | src/pages/Tools/BudgetCalculator.tsx:86-91 | Same length and rows in order; each amount times 100 is the budget times the row's percentage |
| Budget.AmountsSumToShare | src/pages/Tools/BudgetCalculator.tsx:86-91 | The amounts add up to budget × total percentage / 100 |
| Budget.DefaultTotal | src/pages/Tools/BudgetCalculator.tsx:28-77 | The default percentages add up to exactly 100 |
| Budget.InitialAmountsCoverBudget | src/pages/Tools/BudgetCalculator.tsx:28-91 | On the opening page the default split divides the initial budget of 100000 completely |
| Budget.ResetToDefault | src/pages/Tools/BudgetCalculator.tsx:105-107 | After a reset the percentages total 100, so the allocation warning is hidden |
| Budget.NormalizePercentages | src/pages/Tools/BudgetCalculator.tsx:110-120 | A total of 100 leaves the list untouched; otherwise the rows keep their order and every field but the percentage, their percentages total 100, and the new list is the proportional rescale by 100 / total; a zero total gives no result |
| Budget.Rescale | src/pages/Tools/BudgetCalculator.tsx:114-117 | Rows keep every field but the percentage, and each new percentage times the total is the old one times 100 |
| Budget.RescaleTotal | src/pages/Tools/BudgetCalculator.tsx:113-118 | Rescaling every share by 100 / total scales the sum by the same factor |
| MediaDownloader.DetectPlatform | src/pages/Tools/MediaDownloader.tsx:48-56 | Xiaohongshu exactly when the link contains xiaohongshu.com or xhslink.com; Douyin exactly when it does not but contains douyin.com or iesdouyin.com; unknown otherwise |
| MediaDownloader.IesDouyinIsDouyin | src/pages/Tools/MediaDownloader.tsx:52 | A link containing iesdouyin.com already contains douyin.com, so the second test never decides |
| MediaDownloader.MockParse | src/pages/Tools/MediaDownloader.tsx:59-100 | Rejects exactly the unknown platform, with the unsupported-platform message; a result names the detected platform and is a video exactly for Douyin |
| MediaDownloader.BeginParse | src/pages/Tools/MediaDownloader.tsx:103-111 | Blank input only sets the error; otherwise loading starts with error and result cleared; input and history are kept |
| MediaDownloader.FinishParse | src/pages/Tools/MediaDownloader.tsx:113-120 | Loading stops; a resolved parse stores the result, a rejected one stores its message |
| MediaDownloader.HandleParse | src/pages/Tools/MediaDownloader.tsx:103-121 | Blank input sets the error without loading or touching the result; otherwise the trimmed link ends with a result and no error exactly when its platform is supported, or else with the unsupported-platform message |
| MediaDownloader.FileExtension | src/pages/Tools/MediaDownloader.tsx:141 | The extension is mp4 exactly for a video and jpg for everything else |
| MediaDownloader.DownloadFileName | src/pages/Tools/MediaDownloader.tsx:141 | The file name is the title followed by a dot and the extension |
| MediaDownloader.DownloadedFileKind | src/pages/Tools/MediaDownloader.tsx:59-141 | Material parsed from a Douyin link is saved as .mp4, from a Xiaohongshu link as .jpg |
| MediaDownloader.HandleDownload | src/pages/Tools/MediaDownloader.tsx:124-136 | No result means no change; otherwise exactly one entry for the current link, result and category is put in front, prior entries follow in order, and nothing else changes |
| MediaDownloader.HandleClear | src/pages/Tools/MediaDownloader.tsx:151-155 | Input, result and error become empty; history, loading flag and category are kept |
| MediaDownloader.ClearIdempotent | src/pages/Tools/MediaDownloader.tsx:151-155 | Clearing twice is clearing once |
| MediaDownloader.DownloadAfterClearIsNoOp | src/pages/Tools/MediaDownloader.tsx:125 | Right after a clear, a download changes nothing |
| MediaDownloader.FreshPage | src/pages/Tools/MediaDownloader.tsx:34-39 | `handleParse` applied to the initial state only sets the blank-input error, `handleDownload` applied to it changes nothing, and its empty history shows no "view all" control |
| MediaDownloader.HistoryPreview | src/pages/Tools/MediaDownloader.tsx:364 | The panel lists the most recent entries, all of them or exactly five |
| MediaDownloader.ViewAllWhenTruncated | src/pages/Tools/MediaDownloader.tsx:385 | The "view all" control appears exactly when the panel leaves entries out |
| MediaDownloader.CategoryCount | src/pages/Tools/MediaDownloader.tsx:401-402 | The count equals the number of history entries filed under the category (its multiplicity among the entries' categories); it is zero exactly when there are none |
| MediaDownloader.DownloadCounts | src/pages/Tools/MediaDownloader.tsx:128-136 | A download adds one to the selected category's count and leaves every other count unchanged |

## Left out

- Text.Lower: folds only the ASCII letters A–Z. JavaScript's `toLowerCase` also folds other scripts. The shipped data mixes Chinese, which has no case, with ASCII.
- Budget.Rescale: computes `percentage / total * 100` exactly and drops the page's rounding of each share to two decimals.
- Budget.NormalizePercentages: rescales in exact arithmetic. The page rounds each share to two decimals, so its total can miss 100 slightly. With a zero total the page divides by zero and stores NaN; the model returns `None` instead.
- Budget: amounts, totals and percentages are exact reals, not IEEE doubles, so the sum property holds exactly only in the model.
- Asynchrony: the `setTimeout`/Promise wrappers of the queries and of `mockParse` are left out. The model is synchronous. `handleParse` is split at its `await` into `BeginParse` and `FinishParse`.
- ToolsPage.SourceList: states the list the page settles on for one query, not the order in which responses arrive. The page's effect (`src/pages/Tools/Tools.tsx:12-31`) has no cleanup. `searchTools` answers after 200 ms (`src/services/mockService.ts:208`) and `getTools` after 100 ms (`src/services/mockService.ts:169`). So typing a query and clearing it within about 100 ms lets the late search result overwrite the full list, and a blank query can show search results.
- MediaDownloader.FreshPage: states the handlers' guards, not what a user can click. The page disables the parse button while the trimmed input is empty (`src/pages/Tools/MediaDownloader.tsx:232`) and renders the download button only when there is a result (`src/pages/Tools/MediaDownloader.tsx:255`). So the guard branches at lines 104-107 and 125 cannot be reached from the page's buttons.
- Clock readings: `Date.now()` in result and history ids and `toLocaleString()` timestamps become string parameters (`stamp`, `downloadedAt`).
- Effects: `alert`, creating and clicking the download anchor, and the budget CSV export (`Blob`, `URL.createObjectURL`) are I/O. Only the download file name is modelled (`DownloadFileName`).
- Formatting: `Intl.NumberFormat` currency text and the CSV layout are library formatting and are not modelled.
- Presentation: charts, JSX layout, the header, the tool detail page and the router are not part of this model. The detail page only renders a not-found view when `getToolById` finds nothing.
- The `ToolSearchParams` type is declared but never used, so it has no counterpart.
- String units: JavaScript strings are UTF-16 code units; here a string is a sequence of Unicode scalar values. The difference only shows for characters outside the Basic Multilingual Plane, such as the emoji icons, which no query reads.

=== FILE: budget.dfy ===
/** The wedding budget calculator: a list of categories, each with a share of the total budget
    in percent, and the amounts those shares come to. Arithmetic is exact (`real`). */
module Budget {
  import opened Wrappers

  datatype BudgetCategory = BudgetCategory(
    id: string,
    name: string,
    percentage: real,
    color: string,
    icon: string,
    description: string
  )

  /** A category together with the amount of the budget it receives. */
  datatype Allocation = Allocation(category: BudgetCategory, amount: real)

  /** The industry-standard split the calculator starts from and resets to. */
  const DefaultCategories: seq<BudgetCategory> := [
    BudgetCategory("venue", "场地费用", 40.0, "#3B82F6", "🏛️", "婚礼场地租赁、装饰布置费用"),
    BudgetCategory("catering", "餐饮费用", 30.0, "#10B981", "🍽️", "婚宴菜品、酒水、服务费用"),
    BudgetCategory("photography", "摄影摄像", 15.0, "#F59E0B", "📸", "婚礼摄影、摄像、后期制作"),
    BudgetCategory("flowers", "花艺装饰", 8.0, "#EF4444", "🌸", "手捧花、胸花、会场花艺装饰"),
    BudgetCategory("dress", "服装造型", 5.0, "#8B5CF6", "👗", "婚纱、西装、化妆造型"),
    BudgetCategory("misc", "其他费用", 2.0, "#6B7280", "📋", "邀请函、礼品、交通等杂费")
  ]

  /** The budget the page starts with. */
  const InitialBudget: real := 100000.0

  /** `currentTotal`: the sum of all percentages. */
  function CurrentTotal(cats: seq<BudgetCategory>): real {
    if |cats| == 0 then 0.0 else cats[0].percentage + CurrentTotal(cats[1..])
  }

  /** Every percentage lies in [0, 100], as the edit clamp keeps it. */
  ghost predicate InRange(cats: seq<BudgetCategory>) {
    forall i :: 0 <= i < |cats| ==> 0.0 <= cats[i].percentage <= 100.0
  }

  /** With every share in [0, 100] the total lies between the largest share and 100 times
      the number of rows. */
  lemma {:induction false} CurrentTotalBounds(cats: seq<BudgetCategory>)
    requires InRange(cats)
    ensures 0.0 <= CurrentTotal(cats) <= 100.0 * |cats| as real
    ensures forall i :: 0 <= i < |cats| ==> cats[i].percentage <= CurrentTotal(cats)
  {
    if |cats| > 0 {
      assert forall i :: 1 <= i < |cats| ==> cats[i] == cats[1..][i - 1];
      CurrentTotalBounds(cats[1..]);
    }
  }

  /** The sum of all allocated amounts. */
  function TotalAmount(allocs: seq<Allocation>): real {
    if |allocs| == 0 then 0.0 else allocs[0].amount + TotalAmount(allocs[1..])
  }

  /** The over/under-allocation warning is shown whenever the percentages do not add up to 100. */
  predicate ShowsAllocationWarning(cats: seq<BudgetCategory>) {
    CurrentTotal(cats) != 100.0
  }

  /** `Math.max(0, Math.min(100, p))`: the percentage an edit may set. */
  function Clamp(p: real): (r: real)
    ensures 0.0 <= r <= 100.0
    ensures 0.0 <= p <= 100.0 ==> r == p
    ensures p < 0.0 ==> r == 0.0
    ensures p > 100.0 ==> r == 100.0
  {
    if p > 100.0 then 100.0 else if p < 0.0 then 0.0 else p
  }

  /** `calculateAmounts`: each category receives `totalBudget * percentage / 100`. */
  function CalculateAmounts(cats: seq<BudgetCategory>, totalBudget: real): (r: seq<Allocation>)
    ensures |r| == |cats|
    ensures forall i :: 0 <= i < |r| ==> r[i].category == cats[i]
    ensures forall i :: 0 <= i < |r| ==> r[i].amount * 100.0 == totalBudget * cats[i].percentage
  {
    seq(|cats|, i requires 0 <= i < |cats| => Allocation(cats[i], (totalBudget * cats[i].percentage) / 100.0))
  }

  /** In exact arithmetic the amounts add up to the same share of the budget as the percentages. */
  lemma {:induction false} AmountsSumToShare(cats: seq<BudgetCategory>, totalBudget: real)
    ensures TotalAmount(CalculateAmounts(cats, totalBudget)) == totalBudget * CurrentTotal(cats) / 100.0
  {
    if |cats| > 0 {
      AmountsSumToShare(cats[1..], totalBudget);
      var all := CalculateAmounts(cats, totalBudget);
      var tail := CalculateAmounts(cats[1..], totalBudget);
      assert forall i :: 0 <= i < |tail| ==> all[1..][i] == tail[i];
      assert all[1..] == tail;
    }
  }

  /** `updateCategoryPercentage`: every row with the given id gets the clamped percentage. */
  function UpdateCategoryPercentage(cats: seq<BudgetCategory>, id: string, newPercentage: real): (r: seq<BudgetCategory>)
    ensures |r| == |cats|
    ensures forall i :: 0 <= i < |r| && cats[i].id == id ==> r[i] == cats[i].(percentage := Clamp(newPercentage))
    ensures forall i :: 0 <= i < |r| && cats[i].id != id ==> r[i] == cats[i]
  {
    if |cats| == 0 then []
    else
      var head := if cats[0].id == id then cats[0].(percentage := Clamp(newPercentage)) else cats[0];
      [head] + UpdateCategoryPercentage(cats[1..], id, newPercentage)
  }

  /** After an update the edited rows hold a percentage in [0, 100]; ids, names and every other
      field of every row are as before. */
  lemma UpdateKeepsShape(cats: seq<BudgetCategory>, id: string, p: real)
    ensures forall i :: 0 <= i < |cats| && cats[i].id == id ==>
      0.0 <= UpdateCategoryPercentage(cats, id, p)[i].percentage <= 100.0
    ensures forall i :: 0 <= i < |cats| ==>
      UpdateCategoryPercentage(cats, id, p)[i].(percentage := cats[i].percentage) == cats[i]
  {
  }

  /** An update for an id no row carries changes nothing. */
  lemma UpdateUnknownIdIsNoOp(cats: seq<BudgetCategory>, id: string, p: real)
    requires forall i :: 0 <= i < |cats| ==> cats[i].id != id
    ensures UpdateCategoryPercentage(cats, id, p) == cats
  {
  }

  /** Repeating an update is the same as doing it once. */
  lemma UpdateIdempotent(cats: seq<BudgetCategory>, id: string, p: real)
    ensures UpdateCategoryPercentage(UpdateCategoryPercentage(cats, id, p), id, p)
      == UpdateCategoryPercentage(cats, id, p)
  {
  }

  /** Updates of two different ids do not interfere. */
  lemma UpdatesCommute(cats: seq<BudgetCategory>, a: string, p: real, b: string, q: real)
    requires a != b
    ensures UpdateCategoryPercentage(UpdateCategoryPercentage(cats, a, p), b, q)
      == UpdateCategoryPercentage(UpdateCategoryPercentage(cats, b, q), a, p)
  {
  }

  /** An update moves the total by exactly the change of the edited rows. */
  lemma {:induction false} UpdateChangesTotal(cats: seq<BudgetCategory>, id: string, p: real)
    requires exists k :: 0 <= k < |cats| && cats[k].id == id
    requires forall i, j :: 0 <= i < j < |cats| ==> cats[i].id != cats[j].id
    ensures exists k :: (0 <= k < |cats| && cats[k].id == id
      && CurrentTotal(UpdateCategoryPercentage(cats, id, p)) == CurrentTotal(cats) - cats[k].percentage + Clamp(p))
  {
    var k :| 0 <= k < |cats| && cats[k].id == id;
    UpdateTotalAt(cats, id, p, k);
  }

  lemma {:induction false} UpdateTotalAt(cats: seq<BudgetCategory>, id: string, p: real, k: int)
    requires 0 <= k < |cats| && cats[k].id == id
    requires forall i :: 0 <= i < |cats| && i != k ==> cats[i].id != id
    ensures CurrentTotal(UpdateCategoryPercentage(cats, id, p)) == CurrentTotal(cats) - cats[k].percentage + Clamp(p)
  {
    var r := UpdateCategoryPercentage(cats, id, p);
    assert r[1..] == UpdateCategoryPercentage(cats[1..], id, p);
    if k == 0 {
      UpdateUnknownIdIsNoOp(cats[1..], id, p);
    } else {
      UpdateTotalAt(cats[1..], id, p, k - 1);
    }
  }

  /** `resetToDefault`: the default split, whatever the current one. */
  function ResetToDefault(cats: seq<BudgetCategory>): (r: seq<BudgetCategory>)
    ensures CurrentTotal(r) == 100.0
    ensures !ShowsAllocationWarning(r)
    ensures |r| == |DefaultCategories|
  {
    DefaultTotal();
    DefaultCategories
  }

  /** The default percentages add up to exactly 100. */
  lemma DefaultTotal()
    ensures CurrentTotal(DefaultCategories) == 100.0
  {
    var d := DefaultCategories;
    assert CurrentTotal(d[5..]) == 2.0;
    assert CurrentTotal(d[4..]) == 7.0;
    assert CurrentTotal(d[3..]) == 15.0;
    assert CurrentTotal(d[2..]) == 30.0;
    assert CurrentTotal(d[1..]) == 60.0;
  }

  /** On the opening page the default split divides the initial budget completely. */
  lemma InitialAmountsCoverBudget()
    ensures TotalAmount(CalculateAmounts(DefaultCategories, InitialBudget)) == InitialBudget
  {
    AmountsSumToShare(DefaultCategories, InitialBudget);
    DefaultTotal();
  }

  /** Each row's share of the total, rescaled so that the shares add up to 100
      (`percentage / total * 100`, without the rounding to two decimals). */
  function Rescale(cats: seq<BudgetCategory>, total: real): (r: seq<BudgetCategory>)
    requires total != 0.0
    ensures |r| == |cats|
    ensures forall i :: 0 <= i < |r| ==> r[i].(percentage := cats[i].percentage) == cats[i]
    ensures forall i :: 0 <= i < |r| ==> r[i].percentage * total == cats[i].percentage * 100.0
  {
    seq(|cats|, i requires 0 <= i < |cats| => cats[i].(percentage := cats[i].percentage / total * 100.0))
  }

  lemma {:induction false} RescaleTotal(cats: seq<BudgetCategory>, total: real)
    requires total != 0.0
    ensures CurrentTotal(Rescale(cats, total)) == CurrentTotal(cats) / total * 100.0
  {
    if |cats| > 0 {
      RescaleTotal(cats[1..], total);
      var all := Rescale(cats, total);
      var tail := Rescale(cats[1..], total);
      assert forall i :: 0 <= i < |tail| ==> all[1..][i] == tail[i];
      assert all[1..] == tail;
    }
  }

  /** `normalizePercentages`: nothing happens when the total is already 100; otherwise every
      percentage is rescaled so that the total becomes 100. A zero total, for which the page
      would divide by zero, yields `None`. */
  function NormalizePercentages(cats: seq<BudgetCategory>): (r: Option<seq<BudgetCategory>>)
    ensures CurrentTotal(cats) == 100.0 ==> r == Some(cats)
    ensures r.None? <==> CurrentTotal(cats) == 0.0
    ensures r.Some? ==> CurrentTotal(r.value) == 100.0 && |r.value| == |cats|
    ensures r.Some? ==> forall i :: 0 <= i < |cats| ==> r.value[i].id == cats[i].id
    ensures r.Some? ==> forall i :: 0 <= i < |cats| ==> r.value[i].(percentage := cats[i].percentage) == cats[i]
    ensures r.Some? && CurrentTotal(cats) != 100.0 ==> r.value == Rescale(cats, CurrentTotal(cats))
  {
    var total := CurrentTotal(cats);
    if total == 100.0 then Some(cats)
    else if total == 0.0 then None
    else
      RescaleTotal(cats, total);
      assert total / total * 100.0 == 100.0;
      Some(Rescale(cats, total))
  }
}

=== FILE: catalogue.dfy ===
/** The catalogue service: the shipped dataset and its read-only queries
    (`getTools`, `getToolById`, `getToolsByCategory`, `searchTools`).
    Every query takes the dataset as a parameter; `MockData` is the value the site ships. */
module Catalogue {
  import opened Wrappers
  import opened Text
  import opened Sequences
  import opened ToolTypes

  // ---------------------------------------------------------------------------
  // The shipped dataset
  // ---------------------------------------------------------------------------

  const MockData: seq<ToolCategory> := [
    ToolCategory("text", "文本工具", "📝", Some("各种文本处理和格式化工具"), [
      Tool("json-formatter", "JSON格式化", "格式化和验证JSON数据，支持压缩和美化", "text", "🔧",
        "/tools/json-formatter", None, Some(["JSON", "格式化", "验证"]), Some(true)),
      Tool("base64-encoder", "Base64编解码", "Base64编码和解码工具，支持文本和文件", "text", "🔐",
        "/tools/base64-encoder", None, Some(["Base64", "编码", "解码"]), None),
      Tool("url-encoder", "URL编解码", "URL编码和解码，处理特殊字符", "text", "🌐",
        "/tools/url-encoder", None, Some(["URL", "编码", "解码"]), None),
      Tool("markdown-converter", "Markdown转换", "Markdown与HTML互相转换", "text", "📄",
        "/tools/markdown-converter", Some(true), Some(["Markdown", "HTML", "转换"]), None)
    ]),
    ToolCategory("image", "图片工具", "🖼️", Some("图片处理和优化工具"), [
      Tool("image-compressor", "图片压缩", "在线压缩图片，减少文件大小", "image", "📦",
        "/tools/image-compressor", None, Some(["图片", "压缩", "优化"]), Some(true)),
      Tool("image-converter", "图片格式转换", "支持JPG、PNG、WebP等格式互转", "image", "🔄",
        "/tools/image-converter", Some(true), Some(["图片", "转换", "格式"]), None),
      Tool("qr-generator", "二维码生成", "生成各种样式的二维码", "image", "📱",
        "/tools/qr-generator", None, Some(["二维码", "生成", "QR码"]), None)
    ]),
    ToolCategory("developer", "开发工具", "⚙️", Some("面向开发者的实用工具"), [
      Tool("color-picker", "颜色选择器", "颜色选择和格式转换工具", "developer", "🎨",
        "/tools/color-picker", None, Some(["颜色", "选择器", "CSS"]), Some(true)),
      Tool("regex-tester", "正则表达式测试", "测试和验证正则表达式", "developer", "🔍",
        "/tools/regex-tester", None, Some(["正则", "测试", "验证"]), None),
      Tool("hash-generator", "Hash生成器", "生成MD5、SHA1、SHA256等Hash值", "developer", "#️⃣",
        "/tools/hash-generator", None, Some(["Hash", "MD5", "SHA256"]), None),
      Tool("timestamp-converter", "时间戳转换", "时间戳与日期时间互相转换", "developer", "⏰",
        "/tools/timestamp-converter", None, Some(["时间戳", "日期", "转换"]), None)
    ]),
    ToolCategory("calculator", "计算工具", "🔢", Some("各种计算和换算工具"), [
      Tool("unit-converter", "单位转换", "长度、重量、温度等单位转换", "calculator", "📏",
        "/tools/unit-converter", Some(true), Some(["单位", "转换", "计算"]), None),
      Tool("percentage-calculator", "百分比计算", "各种百分比计算工具", "calculator", "%",
        "/tools/percentage-calculator", Some(true), Some(["百分比", "计算", "数学"]), None)
    ])
  ]

  // ---------------------------------------------------------------------------
  // Dataset invariants
  // ---------------------------------------------------------------------------

  /** `flatMap(cat => cat.tools)`: all tools in catalogue order, category order first and tool
      order within a category; it holds exactly the tools of the categories. */
  function Flatten(cats: seq<ToolCategory>): (r: seq<Tool>)
    ensures forall t :: t in r <==> exists i :: 0 <= i < |cats| && t in cats[i].tools
  {
    if |cats| == 0 then []
    else
      var rest := Flatten(cats[1..]);
      assert forall t :: t in rest <==> exists i :: 1 <= i < |cats| && t in cats[i].tools by {
        assert forall i :: 1 <= i < |cats| ==> cats[i] == cats[1..][i - 1];
      }
      cats[0].tools + rest
  }

  /** Every tool names the category that holds it. */
  ghost predicate CategoryRefsValid(cats: seq<ToolCategory>) {
    forall i, t :: 0 <= i < |cats| && t in cats[i].tools ==> t.category == cats[i].id
  }

  /** No two categories share an id. */
  ghost predicate UniqueCategoryIds(cats: seq<ToolCategory>) {
    forall i, j :: 0 <= i < j < |cats| ==> cats[i].id != cats[j].id
  }

  /** No two tools of the whole catalogue share an id. */
  ghost predicate UniqueToolIds(cats: seq<ToolCategory>) {
    var all := Flatten(cats);
    forall i, j :: 0 <= i < j < |all| ==> all[i].id != all[j].id
  }

  ghost predicate WellFormed(cats: seq<ToolCategory>) {
    CategoryRefsValid(cats) && UniqueCategoryIds(cats) && UniqueToolIds(cats)
  }

  /** The tool ids of the shipped dataset, in catalogue order. */
  const MockToolIds: seq<string> := [
    "json-formatter", "base64-encoder", "url-encoder", "markdown-converter",
    "image-compressor", "image-converter", "qr-generator",
    "color-picker", "regex-tester", "hash-generator", "timestamp-converter",
    "unit-converter", "percentage-calculator"
  ]

  function Ids(ts: seq<Tool>): (r: seq<string>)
    ensures |r| == |ts| && forall i :: 0 <= i < |ts| ==> r[i] == ts[i].id
  {
    seq(|ts|, i requires 0 <= i < |ts| => ts[i].id)
  }

  lemma MockToolIdsDistinct()
    ensures forall i, j :: 0 <= i < j < |MockToolIds| ==> MockToolIds[i] != MockToolIds[j]
  {
  }

  lemma MockFlatten()
    ensures Flatten(MockData) == MockData[0].tools + MockData[1].tools + MockData[2].tools + MockData[3].tools
  {
    var d := MockData;
    assert Flatten(d[3..]) == d[3].tools + Flatten(d[4..]);
    assert Flatten(d[2..]) == d[2].tools + Flatten(d[3..]);
    assert Flatten(d[1..]) == d[1].tools + Flatten(d[2..]);
  }

  lemma MockToolIdsInOrder()
    ensures Ids(Flatten(MockData)) == MockToolIds
  {
    MockFlatten();
    var all := MockData[0].tools + MockData[1].tools + MockData[2].tools + MockData[3].tools;
    assert forall i :: 0 <= i < 4 ==> all[i] == MockData[0].tools[i];
    assert forall i :: 4 <= i < 7 ==> all[i] == MockData[1].tools[i - 4];
    assert forall i :: 7 <= i < 11 ==> all[i] == MockData[2].tools[i - 7];
    assert forall i :: 11 <= i < 13 ==> all[i] == MockData[3].tools[i - 11];
  }

  lemma MockRefsValid()
    ensures CategoryRefsValid(MockData)
  {
    forall i, t | 0 <= i < |MockData| && t in MockData[i].tools
      ensures t.category == MockData[i].id
    {
      var ts := MockData[i].tools;
      var k :| 0 <= k < |ts| && ts[k] == t;
    }
  }

  lemma MockCategoryIdsUnique()
    ensures UniqueCategoryIds(MockData)
  {
    assert MockData[0].id == "text" && MockData[1].id == "image";
    assert MockData[2].id == "developer" && MockData[3].id == "calculator";
  }

  lemma MockToolIdsUnique()
    ensures UniqueToolIds(MockData)
  {
    MockToolIdsInOrder();
    MockToolIdsDistinct();
    var all := Flatten(MockData);
    forall i, j | 0 <= i < j < |all|
      ensures all[i].id != all[j].id
    {
      assert all[i].id == MockToolIds[i] && all[j].id == MockToolIds[j];
    }
  }

  /** The shipped dataset meets all three invariants. */
  lemma MockDataWellFormed()
    ensures WellFormed(MockData)
  {
    MockRefsValid();
    MockCategoryIdsUnique();
    MockToolIdsUnique();
  }

  /** `getTools`: the whole dataset, which satisfies the catalogue invariants. */
  function GetTools(): (r: seq<ToolCategory>)
    ensures WellFormed(r)
    ensures |r| == 4
  {
    MockDataWellFormed();
    MockData
  }

  // ---------------------------------------------------------------------------
  // Lookup by id
  // ---------------------------------------------------------------------------

  /** Index `k` holds the first tool of `ts` whose id is `id`. */
  ghost predicate FirstToolWithId(ts: seq<Tool>, id: string, k: int) {
    0 <= k < |ts| && ts[k].id == id && forall j :: 0 <= j < k ==> ts[j].id != id
  }

  /** `Array.prototype.find` with the predicate `tool.id === id`. */
  function FindTool(ts: seq<Tool>, id: string): (r: Option<Tool>)
    ensures r.None? <==> forall i :: 0 <= i < |ts| ==> ts[i].id != id
    ensures r.Some? ==> exists k :: FirstToolWithId(ts, id, k) && ts[k] == r.value
  {
    if |ts| == 0 then None
    else if ts[0].id == id then
      assert FirstToolWithId(ts, id, 0);
      Some(ts[0])
    else
      var r := FindTool(ts[1..], id);
      assert r.None? <==> forall i :: 0 <= i < |ts| ==> ts[i].id != id by {
        if r.None? {
          assert forall i :: 1 <= i < |ts| ==> ts[i] == ts[1..][i - 1];
        } else {
          var k :| FirstToolWithId(ts[1..], id, k) && ts[1..][k] == r.value;
          assert ts[k + 1] == ts[1..][k];
        }
      }
      assert r.Some? ==> exists k :: FirstToolWithId(ts, id, k) && ts[k] == r.value by {
        if r.Some? {
          var k :| FirstToolWithId(ts[1..], id, k) && ts[1..][k] == r.value;
          assert forall j :: 1 <= j < k + 1 ==> ts[j] == ts[1..][j - 1];
          assert FirstToolWithId(ts, id, k + 1);
        }
      }
      r
  }

  /** `getToolById`: the first tool, in catalogue order, whose id equals `id` exactly;
      `None` when no tool has that id. */
  function GetToolById(cats: seq<ToolCategory>, id: string): (r: Option<Tool>)
    ensures r.Some? ==> r.value.id == id
    ensures r.Some? ==> exists i :: 0 <= i < |cats| && r.value in cats[i].tools
    ensures r.Some? ==> exists k :: FirstToolWithId(Flatten(cats), id, k) && Flatten(cats)[k] == r.value
    ensures r.None? <==> forall i, t :: 0 <= i < |cats| && t in cats[i].tools ==> t.id != id
  {
    var all := Flatten(cats);
    var r := FindTool(all, id);
    if r.Some? then
      assert r.value in all;
      r
    else
      assert forall i, t :: 0 <= i < |cats| && t in cats[i].tools ==> t.id != id by {
        forall i, t | 0 <= i < |cats| && t in cats[i].tools
          ensures t.id != id
        {
          assert t in all;
        }
      }
      r
  }

  /** With globally unique tool ids the lookup is exact: it finds `t` precisely when `t`
      is a catalogue tool carrying that id, so the first-match tie-break never matters. */
  lemma {:induction false} LookupExactWhenUnique(cats: seq<ToolCategory>, id: string, t: Tool)
    requires UniqueToolIds(cats)
    ensures GetToolById(cats, id) == Some(t) <==> t in Flatten(cats) && t.id == id
  {
    var all := Flatten(cats);
    var r := GetToolById(cats, id);
    if t in all && t.id == id {
      var m :| 0 <= m < |all| && all[m] == t;
      assert r.Some?;
      var k :| FirstToolWithId(all, id, k) && all[k] == r.value;
      assert k == m;
    }
    if r == Some(t) {
      var k :| FirstToolWithId(all, id, k) && all[k] == r.value;
    }
  }

  /** Index `k` holds the first category of `cats` whose id is `cid`. */
  ghost predicate FirstCategoryWithId(cats: seq<ToolCategory>, cid: string, k: int) {
    0 <= k < |cats| && cats[k].id == cid && forall j :: 0 <= j < k ==> cats[j].id != cid
  }

  /** `getToolsByCategory`: the first category whose id equals `cid`, tools included and unchanged;
      `None` when no category has that id. */
  function GetToolsByCategory(cats: seq<ToolCategory>, cid: string): (r: Option<ToolCategory>)
    ensures r.None? <==> forall i :: 0 <= i < |cats| ==> cats[i].id != cid
    ensures r.Some? ==> exists k :: FirstCategoryWithId(cats, cid, k) && cats[k] == r.value
  {
    if |cats| == 0 then None
    else if cats[0].id == cid then
      assert FirstCategoryWithId(cats, cid, 0);
      Some(cats[0])
    else
      var r := GetToolsByCategory(cats[1..], cid);
      assert r.None? <==> forall i :: 0 <= i < |cats| ==> cats[i].id != cid by {
        if r.None? {
          assert forall i :: 1 <= i < |cats| ==> cats[i] == cats[1..][i - 1];
        } else {
          var k :| FirstCategoryWithId(cats[1..], cid, k) && cats[1..][k] == r.value;
          assert cats[k + 1] == cats[1..][k];
        }
      }
      assert r.Some? ==> exists k :: FirstCategoryWithId(cats, cid, k) && cats[k] == r.value by {
        if r.Some? {
          var k :| FirstCategoryWithId(cats[1..], cid, k) && cats[1..][k] == r.value;
          assert forall j :: 1 <= j < k + 1 ==> cats[j] == cats[1..][j - 1];
          assert FirstCategoryWithId(cats, cid, k + 1);
        }
      }
      r
  }

  /** In a well-formed catalogue every tool of the category found for `cid` names `cid`. */
  lemma CategoryLookupTools(cats: seq<ToolCategory>, cid: string)
    requires CategoryRefsValid(cats)
    requires GetToolsByCategory(cats, cid).Some?
    ensures forall t :: t in GetToolsByCategory(cats, cid).value.tools ==> t.category == cid
  {
    var c := GetToolsByCategory(cats, cid).value;
    var k :| FirstCategoryWithId(cats, cid, k) && cats[k] == c;
  }

  // ---------------------------------------------------------------------------
  // Search
  // ---------------------------------------------------------------------------

  /** The matching rule of `searchTools`, stated with the reference containment: the folded
      query lies inside the folded name, inside the folded description, or inside some folded
      tag. An absent tag list contributes nothing. */
  ghost predicate Relevant(t: Tool, query: string) {
    var q := Lower(query);
    Contains(Lower(t.name), q) || Contains(Lower(t.description), q)
    || (t.tags.Some? && exists i :: 0 <= i < |t.tags.value| && Contains(Lower(t.tags.value[i]), q))
  }

  /** `tags.some(tag => tag.toLowerCase().includes(q))`. */
  function AnyTagIncludes(tags: seq<string>, q: string): (b: bool)
    ensures b <==> exists i :: 0 <= i < |tags| && Contains(Lower(tags[i]), q)
  {
    if |tags| == 0 then false
    else if Includes(Lower(tags[0]), q) then true
    else
      var rest := AnyTagIncludes(tags[1..], q);
      assert rest <==> exists i :: 0 <= i < |tags| && Contains(Lower(tags[i]), q) by {
        if rest {
          var i :| 0 <= i < |tags[1..]| && Contains(Lower(tags[1..][i]), q);
          assert tags[i + 1] == tags[1..][i];
        } else {
          forall i | 1 <= i < |tags|
            ensures !Contains(Lower(tags[i]), q)
          {
            assert tags[i] == tags[1..][i - 1];
          }
        }
      }
      rest
  }

  /** The filter predicate of `searchTools`, evaluated. */
  function ToolMatches(t: Tool, query: string): (b: bool)
    ensures b <==> Relevant(t, query)
    ensures t.tags.None? ==>
      (b <==> Contains(Lower(t.name), Lower(query)) || Contains(Lower(t.description), Lower(query)))
  {
    var q := Lower(query);
    Includes(Lower(t.name), q) || Includes(Lower(t.description), q)
    || (t.tags.Some? && AnyTagIncludes(t.tags.value, q))
  }

  /** `tools.filter(...)` with the search predicate: exactly the relevant tools, in their order,
      every copy of a relevant tool kept. */
  function FilterTools(ts: seq<Tool>, query: string): (r: seq<Tool>)
    ensures forall t :: t in r ==> Relevant(t, query)
    ensures forall t :: t in ts && Relevant(t, query) ==> t in r
    ensures IsSubsequence(r, ts)
    ensures forall t :: multiset(r)[t] == if Relevant(t, query) then multiset(ts)[t] else 0
  {
    if |ts| == 0 then []
    else
      var rest := FilterTools(ts[1..], query);
      assert ts == [ts[0]] + ts[1..];
      if ToolMatches(ts[0], query) then
        assert ([ts[0]] + rest)[1..] == rest;
        [ts[0]] + rest
      else
        rest
  }

  /** A category keeps its display metadata: everything but the tool list is equal. */
  predicate SameHeader(a: ToolCategory, b: ToolCategory) {
    a.id == b.id && a.name == b.name && a.icon == b.icon && a.description == b.description
  }

  /** `r` is `c` with some of its tools removed and the rest kept in order. */
  ghost predicate DerivedFrom(r: ToolCategory, c: ToolCategory) {
    SameHeader(r, c) && IsSubsequence(r.tools, c.tools)
  }

  /** `rs` is obtained from `cats` by dropping categories and thinning the tool lists of the
      others, keeping category order. */
  ghost predicate SelectedFrom(rs: seq<ToolCategory>, cats: seq<ToolCategory>)
    decreases |cats|
  {
    if |rs| == 0 then true
    else if |cats| == 0 then false
    else (DerivedFrom(rs[0], cats[0]) && SelectedFrom(rs[1..], cats[1..])) || SelectedFrom(rs, cats[1..])
  }

  /** The category `c` with only its tools relevant to `query` (`{ ...category, tools: filtered }`). */
  function Restrict(c: ToolCategory, query: string): (r: ToolCategory)
    ensures DerivedFrom(r, c)
    ensures forall t :: t in r.tools <==> t in c.tools && Relevant(t, query)
    ensures forall t :: multiset(r.tools)[t] == if Relevant(t, query) then multiset(c.tools)[t] else 0
  {
    var kept := FilterTools(c.tools, query);
    SubsequenceContained(kept, c.tools);
    c.(tools := kept)
  }

  /** Placing a non-empty, relevant category derived from the first source category in front
      of a search result over the remaining categories gives a search result over all of them. */
  lemma SearchStep(c: ToolCategory, rest: seq<ToolCategory>, cats: seq<ToolCategory>, query: string)
    requires |cats| > 0 && DerivedFrom(c, cats[0]) && |c.tools| > 0
    requires forall t :: t in c.tools ==> Relevant(t, query)
    requires forall i :: 0 <= i < |rest| ==> |rest[i].tools| > 0
    requires forall i, t :: 0 <= i < |rest| && t in rest[i].tools ==> Relevant(t, query)
    requires SelectedFrom(rest, cats[1..])
    ensures forall i :: 0 <= i < |[c] + rest| ==> |([c] + rest)[i].tools| > 0
    ensures forall i, t :: 0 <= i < |[c] + rest| && t in ([c] + rest)[i].tools ==> Relevant(t, query)
    ensures SelectedFrom([c] + rest, cats)
  {
    assert ([c] + rest)[1..] == rest;
    assert forall i :: 1 <= i < |[c] + rest| ==> ([c] + rest)[i] == rest[i - 1];
  }

  /** `searchTools`: every category restricted to its relevant tools, categories left empty dropped. */
  function SearchTools(cats: seq<ToolCategory>, query: string): (r: seq<ToolCategory>)
    ensures forall i :: 0 <= i < |r| ==> |r[i].tools| > 0
    ensures forall i, t :: 0 <= i < |r| && t in r[i].tools ==> Relevant(t, query)
    ensures SelectedFrom(r, cats)
    ensures |r| <= |cats|
  {
    if |cats| == 0 then []
    else
      var c := Restrict(cats[0], query);
      var rest := SearchTools(cats[1..], query);
      if |c.tools| > 0 then
        SearchStep(c, rest, cats, query);
        [c] + rest
      else
        rest
  }

  /** A relevant tool of a category survives its restriction. */
  lemma RestrictKeeps(c: ToolCategory, query: string, t: Tool)
    requires t in c.tools && Relevant(t, query)
    ensures t in Restrict(c, query).tools
  {
  }

  /** Completeness of search: a relevant tool of any source category appears in the result,
      inside that category's restriction. */
  lemma {:induction false} SearchComplete(cats: seq<ToolCategory>, query: string, i: int, t: Tool)
    requires 0 <= i < |cats| && t in cats[i].tools && Relevant(t, query)
    ensures exists j :: (0 <= j < |SearchTools(cats, query)|
      && SearchTools(cats, query)[j] == Restrict(cats[i], query) && t in SearchTools(cats, query)[j].tools)
    decreases |cats|
  {
    if i == 0 {
      RestrictKeeps(cats[0], query, t);
      assert SearchTools(cats, query)[0] == Restrict(cats[0], query);
    } else {
      var tail := cats[1..];
      assert cats[i] == tail[i - 1];
      SearchComplete(tail, query, i - 1, t);
      var rest := SearchTools(tail, query);
      var j :| 0 <= j < |rest| && rest[j] == Restrict(cats[i], query) && t in rest[j].tools;
      var r := SearchTools(cats, query);
      if |Restrict(cats[0], query).tools| > 0 {
        assert r[j + 1] == rest[j];
      } else {
        assert r == rest;
      }
    }
  }

  /** The categories that still hold at least one tool, in order. */
  function DropEmpty(cats: seq<ToolCategory>): (r: seq<ToolCategory>)
    ensures forall i :: 0 <= i < |r| ==> |r[i].tools| > 0
    ensures IsSubsequence(r, cats)
    ensures forall c :: c in cats && |c.tools| > 0 ==> c in r
  {
    if |cats| == 0 then []
    else if |cats[0].tools| > 0 then
      assert ([cats[0]] + DropEmpty(cats[1..]))[1..] == DropEmpty(cats[1..]);
      [cats[0]] + DropEmpty(cats[1..])
    else DropEmpty(cats[1..])
  }

  /** `cats.map(...)`: every category restricted to its relevant tools, one per source category. */
  function RestrictAll(cats: seq<ToolCategory>, query: string): (r: seq<ToolCategory>)
    ensures |r| == |cats|
    ensures forall i :: 0 <= i < |cats| ==> r[i] == Restrict(cats[i], query)
  {
    seq(|cats|, i requires 0 <= i < |cats| => Restrict(cats[i], query))
  }

  /** Dropping empty categories keeps each non-empty category as many times as it occurs. */
  lemma {:induction false} DropEmptyCounts(cats: seq<ToolCategory>)
    ensures forall c :: multiset(DropEmpty(cats))[c] == if |c.tools| > 0 then multiset(cats)[c] else 0
    decreases |cats|
  {
    if |cats| > 0 {
      DropEmptyCounts(cats[1..]);
      assert cats == [cats[0]] + cats[1..];
    }
  }

  /** `searchTools` is the `map` of every category to its restriction followed by the `filter`
      that drops the empty ones. */
  lemma {:induction false} SearchIsMapThenFilter(cats: seq<ToolCategory>, query: string)
    ensures SearchTools(cats, query) == DropEmpty(RestrictAll(cats, query))
    decreases |cats|
  {
    if |cats| > 0 {
      SearchIsMapThenFilter(cats[1..], query);
      var all := RestrictAll(cats, query);
      assert all[1..] == RestrictAll(cats[1..], query);
      assert DropEmpty(all) == if |all[0].tools| > 0 then [all[0]] + DropEmpty(all[1..]) else DropEmpty(all[1..]);
    }
  }

  /** Search keeps one restricted copy per source occurrence of a category whose restriction
      is non-empty, and no other category. */
  lemma SearchCounts(cats: seq<ToolCategory>, query: string)
    ensures forall c :: (multiset(SearchTools(cats, query))[c]
      == if |c.tools| > 0 then multiset(RestrictAll(cats, query))[c] else 0)
  {
    SearchIsMapThenFilter(cats, query);
    DropEmptyCounts(RestrictAll(cats, query));
  }

  /** Every tool matches the empty query, so filtering by it keeps the whole list. */
  lemma {:induction false} FilterEmptyQuery(ts: seq<Tool>)
    ensures FilterTools(ts, "") == ts
  {
    if |ts| > 0 {
      FilterEmptyQuery(ts[1..]);
      IncludesEmpty(Lower(ts[0].name));
      assert Lower("") == "";
      assert ToolMatches(ts[0], "");
    }
  }

  /** `searchTools("")` is the catalogue without the categories that were already empty. */
  lemma {:induction false} SearchEmptyQuery(cats: seq<ToolCategory>)
    ensures SearchTools(cats, "") == DropEmpty(cats)
  {
    if |cats| > 0 {
      SearchEmptyQuery(cats[1..]);
      FilterEmptyQuery(cats[0].tools);
      assert Restrict(cats[0], "") == cats[0];
    }
  }

  /** Tags match by containment, not by equality: the image compressor is found by the query
      "优", which lies inside its tag "优化" but equals none of its tags and lies in neither its
      name nor its description. */
  lemma TagMatchIsContainment()
    ensures ToolMatches(MockData[1].tools[0], "优")
    ensures forall tag :: tag in MockData[1].tools[0].tags.value ==> tag != "优"
    ensures !Contains(Lower(MockData[1].tools[0].name), "优")
    ensures !Contains(Lower(MockData[1].tools[0].description), "优")
  {
    var t := MockData[1].tools[0];
    MissingFirstChar(Lower(t.name), "优");
    MissingFirstChar(Lower(t.description), "优");
    assert t.tags.value[2] == "优化";
    assert Lower("优化") == "优化" && Lower("优") == "优";
    assert OccursAt("优化", "优", 0);
    assert Contains(Lower(t.tags.value[2]), Lower("优"));
  }

  /** The shipped tools, flattened, carry the shipped ids in order, and `budget-calculator` is
      not among them. */
  lemma ShippedIdsExclude()
    ensures |Flatten(MockData)| == |MockToolIds|
    ensures forall k :: 0 <= k < |Flatten(MockData)| ==> Flatten(MockData)[k].id == MockToolIds[k]
    ensures forall k :: 0 <= k < |Flatten(MockData)| ==> Flatten(MockData)[k].id != "budget-calculator"
  {
    MockToolIdsInOrder();
    var all := Flatten(MockData);
    assert forall k :: 0 <= k < |all| ==> all[k].id == MockToolIds[k];
    assert "budget-calculator" !in MockToolIds;
    forall k | 0 <= k < |all|
      ensures all[k].id != "budget-calculator"
    {
      assert MockToolIds[k] in MockToolIds;
    }
  }

  /** An id that no shipped tool has is not found. */
  lemma UnknownIdNotFound()
    ensures GetToolById(MockData, "budget-calculator") == None
    ensures GetToolById(MockData, "json-formatter").Some?
  {
    ShippedIdsExclude();
    var all := Flatten(MockData);
    assert FindTool(all, "budget-calculator") == None;
    assert all[0].id == "json-formatter";
  }

}

=== FILE: home_page.dfy ===
/** The landing page's featured section: the first three categories and, from each of them,
    the first two tools. */
module HomePage {
  import opened Sequences
  import opened ToolTypes
  import opened Catalogue

  /** How many categories the featured section takes. */
  const FeaturedCategoryCount: nat := 3
  /** How many tools it takes from each featured category. */
  const ToolsPerCategory: nat := 2

  function Min(a: nat, b: nat): nat {
    if a < b then a else b
  }

  /** `categories.slice(0, 3)`: the leading categories, at most three. */
  function FeaturedCategories(cats: seq<ToolCategory>): (r: seq<ToolCategory>)
    ensures |r| == Min(FeaturedCategoryCount, |cats|)
    ensures forall i :: 0 <= i < |r| ==> r[i] == cats[i]
  {
    cats[..Min(FeaturedCategoryCount, |cats|)]
  }

  /** `tools.slice(0, 2)`: the leading tools of a category, at most two. */
  function Leading(ts: seq<Tool>): (r: seq<Tool>)
    ensures |r| == Min(ToolsPerCategory, |ts|)
    ensures forall i :: 0 <= i < |r| ==> r[i] == ts[i]
  {
    ts[..Min(ToolsPerCategory, |ts|)]
  }

  /** `toolsToShow`: the leading tools of every featured category, concatenated in order. */
  function ToolsToShow(featured: seq<ToolCategory>): (r: seq<Tool>)
    ensures |r| <= ToolsPerCategory * |featured|
    ensures forall t :: t in r <==> exists i :: 0 <= i < |featured| && t in Leading(featured[i].tools)
    ensures IsSubsequence(r, Flatten(featured))
    ensures |r| == 0 <==> forall i :: 0 <= i < |featured| ==> |featured[i].tools| == 0
  {
    if |featured| == 0 then []
    else
      var head := Leading(featured[0].tools);
      var rest := ToolsToShow(featured[1..]);
      PrefixIsSubsequence(featured[0].tools, |head|);
      SubsequenceAppend(head, featured[0].tools, rest, Flatten(featured[1..]));
      assert forall t :: t in rest <==> exists i :: 1 <= i < |featured| && t in Leading(featured[i].tools) by {
        forall t | t in rest
          ensures exists i :: 1 <= i < |featured| && t in Leading(featured[i].tools)
        {
          var i :| 0 <= i < |featured[1..]| && t in Leading(featured[1..][i].tools);
          assert featured[i + 1] == featured[1..][i];
        }
        forall t, i | 1 <= i < |featured| && t in Leading(featured[i].tools)
          ensures t in rest
        {
          assert featured[i] == featured[1..][i - 1];
        }
      }
      assert (forall i :: 1 <= i < |featured| ==> |featured[i].tools| == 0)
        <==> (forall i :: 0 <= i < |featured[1..]| ==> |featured[1..][i].tools| == 0) by {
        assert forall i :: 1 <= i < |featured| ==> featured[i] == featured[1..][i - 1];
      }
      head + rest
  }

  /** Every category cut down to its leading tools, headers kept. */
  function Cut(featured: seq<ToolCategory>): seq<ToolCategory> {
    seq(|featured|, i requires 0 <= i < |featured| => featured[i].(tools := Leading(featured[i].tools)))
  }

  /** `flatMap` keeps every copy: the tools shown are exactly the cut categories' tools,
      concatenated in category order, repeats included. */
  lemma {:induction false} ToolsToShowConcatenates(featured: seq<ToolCategory>)
    ensures ToolsToShow(featured) == Flatten(Cut(featured))
    decreases |featured|
  {
    if |featured| > 0 {
      ToolsToShowConcatenates(featured[1..]);
      assert Cut(featured)[1..] == Cut(featured[1..]);
    }
  }

  /** What the featured section shows for a catalogue. */
  function FeaturedTools(cats: seq<ToolCategory>): seq<Tool> {
    ToolsToShow(FeaturedCategories(cats))
  }

  /** At most six tools are shown, each one of the first two tools of one of the first three
      categories; the empty panel appears exactly when those categories hold no tools. */
  lemma FeaturedToolsBounds(cats: seq<ToolCategory>)
    ensures |FeaturedTools(cats)| <= FeaturedCategoryCount * ToolsPerCategory
    ensures forall t :: t in FeaturedTools(cats) ==>
      exists i :: (0 <= i < Min(FeaturedCategoryCount, |cats|)
        && t in cats[i].tools[..Min(ToolsPerCategory, |cats[i].tools|)])
    ensures |FeaturedTools(cats)| == 0
      <==> forall i :: 0 <= i < Min(FeaturedCategoryCount, |cats|) ==> |cats[i].tools| == 0
  {
    var f := FeaturedCategories(cats);
    forall t | t in FeaturedTools(cats)
      ensures exists i :: (0 <= i < Min(FeaturedCategoryCount, |cats|)
        && t in cats[i].tools[..Min(ToolsPerCategory, |cats[i].tools|)])
    {
      var i :| 0 <= i < |f| && t in Leading(f[i].tools);
      assert f[i] == cats[i];
    }
  }

  /** With the shipped catalogue the featured section lists these six tools, in this order. */
  lemma ShippedFeaturedTools()
    ensures Ids(FeaturedTools(MockData)) == ["json-formatter", "base64-encoder", "image-compressor",
      "image-converter", "color-picker", "regex-tester"]
  {
    var f := FeaturedCategories(MockData);
    assert f == MockData[..3];
    var d := f[2..];
    assert ToolsToShow(d) == Leading(d[0].tools) + ToolsToShow(d[1..]);
    assert ToolsToShow(f[1..]) == Leading(f[1].tools) + ToolsToShow(d);
    assert ToolsToShow(f) == Leading(f[0].tools) + ToolsToShow(f[1..]);
  }
}

=== FILE: media_downloader.dfy ===
/** The media downloader page: classifying a link by platform, the demo parser, and the
    parse / download / clear handlers as transitions of the page state. */
module MediaDownloader {
  import opened Wrappers
  import opened Text

  datatype Platform = Xiaohongshu | Douyin | UnknownPlatform

  datatype MediaType = Image | Video | UnknownMedia

  datatype ParseResult = ParseResult(
    id: string,
    platform: Platform,
    mediaType: MediaType,
    title: string,
    description: string,
    thumbnail: string,
    downloadUrl: string,
    author: string,
    tags: seq<string>,
    createdAt: string
  )

  /** One entry of the download history. */
  datatype DownloadHistory = DownloadHistory(
    id: string,
    originalUrl: string,
    result: ParseResult,
    downloadedAt: string,
    category: string
  )

  /** The page state the handlers read and write. */
  datatype PageState = PageState(
    inputUrl: string,
    isLoading: bool,
    parseResult: Option<ParseResult>,
    error: string,
    history: seq<DownloadHistory>,
    selectedCategory: string
  )

  /** The wedding-material categories a download can be filed under. */
  const Categories: seq<string> := ["婚礼现场", "布置装饰", "婚纱造型", "摄影构图", "花艺设计", "甜品台", "迎宾区", "仪式现场"]

  const InitialState: PageState := PageState("", false, None, "", [], Categories[0])

  const BlankInputMessage: string := "请输入有效的链接地址"
  const UnsupportedPlatformMessage: string := "暂不支持该平台，请使用小红书或抖音链接"

  /** The handlers' guards, applied to the initial state: `handleParse` only reports the blank
      input, `handleDownload` changes nothing, and the empty history shows no "view all". */
  lemma FreshPage(stamp: string, at: string)
    ensures BeginParse(InitialState) == InitialState.(error := BlankInputMessage)
    ensures HandleDownload(InitialState, stamp, at) == InitialState
    ensures !ShowsViewAll(InitialState.history)
  {
    assert IsBlank(InitialState.inputUrl);
  }

  /** How many history entries the side panel lists. */
  const HistoryPreviewSize: nat := 5

  /** `detectPlatform`: Xiaohongshu links are recognised first, then Douyin links. */
  function DetectPlatform(url: string): (p: Platform)
    ensures p == Xiaohongshu <==> Contains(url, "xiaohongshu.com") || Contains(url, "xhslink.com")
    ensures p == Douyin <==>
      !(Contains(url, "xiaohongshu.com") || Contains(url, "xhslink.com"))
      && (Contains(url, "douyin.com") || Contains(url, "iesdouyin.com"))
    ensures p == UnknownPlatform <==>
      !Contains(url, "xiaohongshu.com") && !Contains(url, "xhslink.com")
      && !Contains(url, "douyin.com") && !Contains(url, "iesdouyin.com")
  {
    if Includes(url, "xiaohongshu.com") || Includes(url, "xhslink.com") then Xiaohongshu
    else if Includes(url, "douyin.com") || Includes(url, "iesdouyin.com") then Douyin
    else UnknownPlatform
  }

  /** The `iesdouyin.com` test never decides anything: such a link already contains `douyin.com`. */
  lemma IesDouyinIsDouyin(url: string)
    requires Contains(url, "iesdouyin.com")
    ensures Contains(url, "douyin.com")
  {
    assert OccursAt("iesdouyin.com", "douyin.com", 3);
    IncludesTransitive(url, "iesdouyin.com", "douyin.com");
  }

  /** The demo result for a supported platform; `stamp` stands for the clock reading in its id. */
  function MockResult(platform: Platform, stamp: string): ParseResult
    requires platform != UnknownPlatform
  {
    if platform == Xiaohongshu then
      ParseResult("xhs_" + stamp, Xiaohongshu, Image, "【婚礼现场】森系户外婚礼布置灵感",
        "简约而不简单的森系婚礼，绿植与白纱的完美结合，营造自然浪漫的氛围...",
        "https://via.placeholder.com/300x400/FFE4E6/FF69B4?text=小红书婚礼素材",
        "mock://download/xhs/image", "婚礼策划师小美", ["森系婚礼", "户外婚礼", "布置", "绿植"], "2024-01-15")
    else
      ParseResult("dy_" + stamp, Douyin, Video, "超美婚礼入场仪式，新娘美翻了！",
        "这个入场方式太有创意了，花瓣雨配上音乐，氛围感拉满！",
        "https://via.placeholder.com/300x400/E6F3FF/1890FF?text=抖音婚礼视频",
        "mock://download/douyin/video", "婚庆达人", ["入场仪式", "花瓣雨", "创意", "氛围"], "2024-01-16")
  }

  /** `mockParse`: rejects exactly the links of no supported platform; a resolved result names
      the detected platform, as an image post for Xiaohongshu and a video for Douyin. */
  function MockParse(url: string, stamp: string): (r: Result<ParseResult, string>)
    ensures r.Failure? <==> DetectPlatform(url) == UnknownPlatform
    ensures r.Failure? ==> r.error == UnsupportedPlatformMessage
    ensures r.Success? ==> r.value.platform == DetectPlatform(url)
    ensures r.Success? ==> (r.value.mediaType == Video <==> r.value.platform == Douyin)
  {
    var platform := DetectPlatform(url);
    if platform == UnknownPlatform then Failure(UnsupportedPlatformMessage)
    else Success(MockResult(platform, stamp))
  }

  /** The synchronous part of `handleParse`, up to the point where it waits for the parser:
      a blank input only sets the error; otherwise loading starts with the error and the
      previous result cleared. */
  function BeginParse(s: PageState): (r: PageState)
    ensures IsBlank(s.inputUrl) ==> r == s.(error := BlankInputMessage)
    ensures !IsBlank(s.inputUrl) ==> r.isLoading && r.error == "" && r.parseResult.None?
    ensures r.inputUrl == s.inputUrl && r.history == s.history && r.selectedCategory == s.selectedCategory
  {
    if IsBlank(s.inputUrl) then s.(error := BlankInputMessage)
    else s.(isLoading := true, error := "", parseResult := None)
  }

  /** The rest of `handleParse` once the parser has settled: store the result or the message,
      and stop loading. */
  function FinishParse(s: PageState, outcome: Result<ParseResult, string>): (r: PageState)
    ensures !r.isLoading
    ensures outcome.Success? ==> r.parseResult == Some(outcome.value) && r.error == s.error
    ensures outcome.Failure? ==> r.error == outcome.error && r.parseResult == s.parseResult
    ensures r.inputUrl == s.inputUrl && r.history == s.history && r.selectedCategory == s.selectedCategory
  {
    match outcome
    case Success(res) => s.(parseResult := Some(res), isLoading := false)
    case Failure(msg) => s.(error := msg, isLoading := false)
  }

  /** `handleParse` as one step: blank input only sets the error; otherwise the trimmed input
      is parsed and the page ends with either a result and no error or the parser's message
      and no result. */
  function HandleParse(s: PageState, stamp: string): (r: PageState)
    ensures IsBlank(s.inputUrl) ==>
      r.error == BlankInputMessage && r.isLoading == s.isLoading && r.parseResult == s.parseResult
    ensures !IsBlank(s.inputUrl) ==> !r.isLoading
    ensures !IsBlank(s.inputUrl) ==>
      (r.parseResult.Some? <==> DetectPlatform(Trim(s.inputUrl)) != UnknownPlatform)
    ensures !IsBlank(s.inputUrl) && r.parseResult.Some? ==>
      r.error == "" && r.parseResult.value.platform == DetectPlatform(Trim(s.inputUrl))
    ensures !IsBlank(s.inputUrl) && r.parseResult.None? ==> r.error == UnsupportedPlatformMessage
    ensures r.inputUrl == s.inputUrl && r.history == s.history && r.selectedCategory == s.selectedCategory
  {
    var started := BeginParse(s);
    if IsBlank(s.inputUrl) then started
    else FinishParse(started, MockParse(Trim(s.inputUrl), stamp))
  }

  /** The extension of a downloaded file: `mp4` for a video, `jpg` for anything else. */
  function FileExtension(t: MediaType): (e: string)
    ensures t == Video <==> e == "mp4"
    ensures t != Video <==> e == "jpg"
  {
    if t == Video then "mp4" else "jpg"
  }

  /** The file name a download is saved under: the title, a dot, and the extension. */
  function DownloadFileName(res: ParseResult): (name: string)
    ensures |name| > |res.title| && name[..|res.title|] == res.title
    ensures name[|res.title|..] == "." + FileExtension(res.mediaType)
  {
    res.title + "." + FileExtension(res.mediaType)
  }

  /** Material parsed from a Douyin link is saved as an `.mp4` file, from a Xiaohongshu link
      as a `.jpg` file. */
  lemma DownloadedFileKind(url: string, stamp: string)
    requires MockParse(url, stamp).Success?
    ensures var name := DownloadFileName(MockParse(url, stamp).value);
      var ext := name[|name| - 4..];
      (DetectPlatform(url) == Douyin ==> ext == ".mp4") && (DetectPlatform(url) == Xiaohongshu ==> ext == ".jpg")
  {
    var res := MockParse(url, stamp).value;
    var name := DownloadFileName(res);
    assert name[|name| - 4..] == name[|res.title|..];
  }

  /** `handleDownload`: with no parse result nothing happens; otherwise one history entry for
      the current link, result and category is put in front of the history. `stamp` and
      `downloadedAt` stand for the clock readings. */
  function HandleDownload(s: PageState, stamp: string, downloadedAt: string): (r: PageState)
    ensures s.parseResult.None? ==> r == s
    ensures s.parseResult.Some? ==> |r.history| == |s.history| + 1 && r.history[1..] == s.history
    ensures s.parseResult.Some? ==> (r.history[0].result == s.parseResult.value
      && r.history[0].originalUrl == s.inputUrl && r.history[0].category == s.selectedCategory)
    ensures r.(history := s.history) == s
  {
    match s.parseResult
    case None => s
    case Some(res) =>
      var item := DownloadHistory("history_" + stamp, s.inputUrl, res, downloadedAt, s.selectedCategory);
      s.(history := [item] + s.history)
  }

  /** `handleClear`: input, result and error are emptied; the history and the rest are kept. */
  function HandleClear(s: PageState): (r: PageState)
    ensures r.inputUrl == "" && r.parseResult.None? && r.error == ""
    ensures r.history == s.history && r.isLoading == s.isLoading && r.selectedCategory == s.selectedCategory
  {
    s.(inputUrl := "", parseResult := None, error := "")
  }

  /** Clearing twice is clearing once. */
  lemma ClearIdempotent(s: PageState)
    ensures HandleClear(HandleClear(s)) == HandleClear(s)
  {
  }

  /** After a clear a download is a no-op, since there is no result to download. */
  lemma DownloadAfterClearIsNoOp(s: PageState, stamp: string, at: string)
    ensures HandleDownload(HandleClear(s), stamp, at) == HandleClear(s)
  {
  }

  /** The entries the history panel lists: the most recent ones, at most five. */
  function HistoryPreview(h: seq<DownloadHistory>): (r: seq<DownloadHistory>)
    ensures |r| <= HistoryPreviewSize && |r| <= |h|
    ensures |r| == |h| || |r| == HistoryPreviewSize
    ensures forall i :: 0 <= i < |r| ==> r[i] == h[i]
  {
    if |h| <= HistoryPreviewSize then h else h[..HistoryPreviewSize]
  }

  /** The "view all" button appears exactly when the panel leaves entries out. */
  predicate ShowsViewAll(h: seq<DownloadHistory>) {
    |h| > HistoryPreviewSize
  }

  lemma ViewAllWhenTruncated(h: seq<DownloadHistory>)
    ensures ShowsViewAll(h) <==> |HistoryPreview(h)| < |h|
  {
  }

  /** The categories of the history entries, newest first. */
  function CategoriesOf(h: seq<DownloadHistory>): (r: seq<string>)
    ensures |r| == |h| && forall i :: 0 <= i < |h| ==> r[i] == h[i].category
  {
    seq(|h|, i requires 0 <= i < |h| => h[i].category)
  }

  /** The count shown for a category: the history entries filed under it. */
  function CategoryCount(h: seq<DownloadHistory>, category: string): (n: nat)
    ensures n == multiset(CategoriesOf(h))[category]
    ensures n <= |h|
    ensures n == 0 <==> forall i :: 0 <= i < |h| ==> h[i].category != category
  {
    if |h| == 0 then 0
    else
      var rest := CategoryCount(h[1..], category);
      assert rest == 0 <==> forall i :: 1 <= i < |h| ==> h[i].category != category by {
        assert forall i :: 1 <= i < |h| ==> h[i] == h[1..][i - 1];
      }
      assert CategoriesOf(h) == [h[0].category] + CategoriesOf(h[1..]);
      (if h[0].category == category then 1 else 0) + rest
  }

  /** A download adds one to the count of the selected category and leaves the others alone. */
  lemma DownloadCounts(s: PageState, stamp: string, at: string, category: string)
    requires s.parseResult.Some?
    ensures CategoryCount(HandleDownload(s, stamp, at).history, category)
      == CategoryCount(s.history, category) + (if category == s.selectedCategory then 1 else 0)
  {
    var h := HandleDownload(s, stamp, at).history;
    assert h[1..] == s.history;
  }
}

=== FILE: sequences.dfy ===
/** Order-preserving selection from a sequence, the shape of every `filter` and `slice` in the pages. */
module Sequences {

  /** `xs` can be obtained from `ys` by deleting elements, keeping the order of the rest. */
  predicate IsSubsequence<T(==)>(xs: seq<T>, ys: seq<T>)
    decreases |ys|
  {
    if |xs| == 0 then true
    else if |ys| == 0 then false
    else (xs[0] == ys[0] && IsSubsequence(xs[1..], ys[1..])) || IsSubsequence(xs, ys[1..])
  }

  /** A subsequence holds nothing its source lacks and is never longer. */
  lemma {:induction false} SubsequenceContained<T>(xs: seq<T>, ys: seq<T>)
    requires IsSubsequence(xs, ys)
    ensures |xs| <= |ys|
    ensures forall x :: x in xs ==> x in ys
    decreases |ys|
  {
    if |xs| > 0 {
      if xs[0] == ys[0] && IsSubsequence(xs[1..], ys[1..]) {
        SubsequenceContained(xs[1..], ys[1..]);
        assert xs == [xs[0]] + xs[1..];
      } else {
        SubsequenceContained(xs, ys[1..]);
      }
    }
  }

  /** Every sequence is a subsequence of itself. */
  lemma {:induction false} SubsequenceReflexive<T>(xs: seq<T>)
    ensures IsSubsequence(xs, xs)
    decreases |xs|
  {
    if |xs| > 0 {
      SubsequenceReflexive(xs[1..]);
    }
  }

  /** A prefix is a subsequence. */
  lemma {:induction false} PrefixIsSubsequence<T>(xs: seq<T>, n: nat)
    requires n <= |xs|
    ensures IsSubsequence(xs[..n], xs)
    decreases n
  {
    if n > 0 {
      assert xs[..n][1..] == xs[1..][..n - 1];
      PrefixIsSubsequence(xs[1..], n - 1);
    }
  }

  /** Concatenating subsequences of two sequences gives a subsequence of their concatenation. */
  lemma {:induction false} SubsequenceAppend<T>(xs: seq<T>, ys: seq<T>, us: seq<T>, vs: seq<T>)
    requires IsSubsequence(xs, ys) && IsSubsequence(us, vs)
    ensures IsSubsequence(xs + us, ys + vs)
    decreases |ys|
  {
    if |ys| == 0 {
      assert xs == [];
      assert xs + us == us && ys + vs == vs;
    } else {
      assert (ys + vs)[1..] == ys[1..] + vs;
      if |xs| > 0 && xs[0] == ys[0] && IsSubsequence(xs[1..], ys[1..]) {
        SubsequenceAppend(xs[1..], ys[1..], us, vs);
        assert (xs + us)[1..] == xs[1..] + us;
      } else {
        SubsequenceAppend(xs, ys[1..], us, vs);
        if |xs + us| > 0 && (xs + us)[0] == (ys + vs)[0] {
          SubsequenceSkipHead(xs + us, ys + vs);
        }
      }
    }
  }

  /** A subsequence of the tail is a subsequence of the whole sequence. */
  lemma SubsequenceSkipHead<T>(xs: seq<T>, ys: seq<T>)
    requires |ys| > 0 && IsSubsequence(xs, ys[1..])
    ensures IsSubsequence(xs, ys)
  {
  }
}

=== FILE: text.dfy ===
/** The few string operations the pages and the catalogue rely on:
    substring containment (`includes`), case folding (`toLowerCase`)
    and whitespace trimming (`trim`). */
module Text {

  /** `sub` occurs in `s` starting at index `i`. */
  ghost predicate OccursAt(s: string, sub: string, i: int) {
    0 <= i && i + |sub| <= |s| && s[i..i + |sub|] == sub
  }

  /** The reference meaning of containment: some position of `s` starts a copy of `sub`. */
  ghost predicate Contains(s: string, sub: string) {
    exists i :: 0 <= i <= |s| && OccursAt(s, sub, i)
  }

  lemma OccursAtTail(s: string, sub: string, j: int)
    requires |s| > 0 && 0 <= j
    ensures OccursAt(s[1..], sub, j) <==> OccursAt(s, sub, j + 1)
  {
    if 0 <= j && j + |sub| <= |s| - 1 {
      assert s[1..][j..j + |sub|] == s[j + 1..j + 1 + |sub|];
    }
  }

  /** JavaScript's `s.includes(sub)`: a left-to-right scan for an occurrence. */
  function Includes(s: string, sub: string): (b: bool)
    ensures b <==> Contains(s, sub)
    decreases |s|
  {
    if sub <= s then
      assert OccursAt(s, sub, 0);
      true
    else if |s| == 0 then
      assert !OccursAt(s, sub, 0);
      false
    else
      var rest := Includes(s[1..], sub);
      assert rest <==> Contains(s, sub) by {
        if rest {
          var j :| 0 <= j <= |s[1..]| && OccursAt(s[1..], sub, j);
          OccursAtTail(s, sub, j);
        } else if Contains(s, sub) {
          var i :| 0 <= i <= |s| && OccursAt(s, sub, i);
          assert i != 0;
          OccursAtTail(s, sub, i - 1);
          assert false;
        }
      }
      rest
  }

  /** Every string includes the empty string, so an empty query matches everything. */
  lemma IncludesEmpty(s: string)
    ensures Includes(s, "")
  {
    assert OccursAt(s, "", 0);
  }

  /** Containment is transitive: a string inside a substring of `s` is inside `s`. */
  lemma IncludesTransitive(a: string, b: string, c: string)
    requires Includes(a, b) && Includes(b, c)
    ensures Includes(a, c)
  {
    var i :| 0 <= i <= |a| && OccursAt(a, b, i);
    var j :| 0 <= j <= |b| && OccursAt(b, c, j);
    forall k | 0 <= k < |c|
      ensures c[k] == a[i + j + k]
    {
      assert c[k] == b[j + k];
      assert b[j + k] == a[i..i + |b|][j + k];
    }
    assert a[i + j..i + j + |c|] == c;
    assert OccursAt(a, c, i + j);
  }

  /** A string that lacks the first character of `sub` does not contain `sub`. */
  lemma MissingFirstChar(s: string, sub: string)
    requires |sub| > 0
    requires forall i :: 0 <= i < |s| ==> s[i] != sub[0]
    ensures !Contains(s, sub)
  {
    forall i | 0 <= i <= |s|
      ensures !OccursAt(s, sub, i)
    {
      if i + |sub| <= |s| {
        assert s[i..i + |sub|][0] == s[i];
      }
    }
  }

  /** ASCII case folding of one character. */
  function LowerChar(c: char): (d: char)
    ensures 'A' <= c <= 'Z' ==> 'a' <= d <= 'z' && d as int - c as int == 'a' as int - 'A' as int
    ensures !('A' <= c <= 'Z') ==> d == c
  {
    if 'A' <= c <= 'Z' then (c as int - 'A' as int + 'a' as int) as char else c
  }

  /** `toLowerCase`, restricted to ASCII letters. */
  function Lower(s: string): (r: string)
    ensures |r| == |s|
    ensures forall i :: 0 <= i < |s| ==> r[i] == LowerChar(s[i])
  {
    seq(|s|, i requires 0 <= i < |s| => LowerChar(s[i]))
  }

  /** The ECMAScript WhiteSpace and LineTerminator characters that `trim` removes. */
  predicate IsWhitespace(c: char) {
    c == '\t' || c == '\n' || c == '\U{000B}' || c == '\U{000C}' || c == '\r' || c == ' '
    || c == '\U{00A0}' || c == '\U{1680}' || ('\U{2000}' <= c <= '\U{200A}')
    || c == '\U{2028}' || c == '\U{2029}' || c == '\U{202F}' || c == '\U{205F}'
    || c == '\U{3000}' || c == '\U{FEFF}'
  }

  /** Drops leading whitespace. */
  function TrimStart(s: string): (r: string)
    ensures |r| <= |s| && r == s[|s| - |r|..]
    ensures forall i :: 0 <= i < |s| - |r| ==> IsWhitespace(s[i])
    ensures |r| == 0 || !IsWhitespace(r[0])
    decreases |s|
  {
    if |s| > 0 && IsWhitespace(s[0]) then TrimStart(s[1..]) else s
  }

  /** Drops trailing whitespace. */
  function TrimEnd(s: string): (r: string)
    ensures |r| <= |s| && r == s[..|r|]
    ensures forall i :: |r| <= i < |s| ==> IsWhitespace(s[i])
    ensures |r| == 0 || !IsWhitespace(r[|r| - 1])
    decreases |s|
  {
    if |s| > 0 && IsWhitespace(s[|s| - 1]) then TrimEnd(s[..|s| - 1]) else s
  }

  /** `r` is the slice of `s` starting at `a`, and everything of `s` outside it is whitespace. */
  ghost predicate TrimmedAt(s: string, r: string, a: int) {
    0 <= a <= |s| - |r| && r == s[a..a + |r|]
    && (forall i :: 0 <= i < a ==> IsWhitespace(s[i]))
    && (forall i :: a + |r| <= i < |s| ==> IsWhitespace(s[i]))
  }

  /** JavaScript's `s.trim()`: the slice of `s` that neither starts nor ends with whitespace
      and outside which there is only whitespace. */
  function Trim(s: string): (r: string)
    ensures exists a :: TrimmedAt(s, r, a)
    ensures |r| > 0 ==> !IsWhitespace(r[0]) && !IsWhitespace(r[|r| - 1])
    ensures |r| == 0 <==> forall i :: 0 <= i < |s| ==> IsWhitespace(s[i])
  {
    var t := TrimStart(s);
    var r := TrimEnd(t);
    TrimSlice(s, t, r);
    r
  }

  lemma TrimSlice(s: string, t: string, r: string)
    requires |t| <= |s| && t == s[|s| - |t|..]
    requires forall i :: 0 <= i < |s| - |t| ==> IsWhitespace(s[i])
    requires |t| == 0 || !IsWhitespace(t[0])
    requires |r| <= |t| && r == t[..|r|]
    requires forall i :: |r| <= i < |t| ==> IsWhitespace(t[i])
    requires |r| == 0 || !IsWhitespace(r[|r| - 1])
    ensures TrimmedAt(s, r, |s| - |t|)
    ensures |r| > 0 ==> !IsWhitespace(r[0]) && !IsWhitespace(r[|r| - 1])
    ensures |r| == 0 <==> forall i :: 0 <= i < |s| ==> IsWhitespace(s[i])
  {
    var a := |s| - |t|;
    forall i | 0 <= i < |r|
      ensures r[i] == s[a + i]
    {
      assert r[i] == t[i];
      assert t[i] == s[a..][i];
    }
    assert r == s[a..a + |r|];
    forall i | a + |r| <= i < |s|
      ensures IsWhitespace(s[i])
    {
      assert s[i] == t[i - a];
    }
    if |r| > 0 {
      assert r[0] == t[0];
    }
  }

  /** A string is blank when trimming leaves nothing (JavaScript treats `""` as false). */
  predicate IsBlank(s: string) {
    |Trim(s)| == 0
  }
}

=== FILE: tool_types.dfy ===
/** The catalogue's two record types: a tool and the category that owns it. */
module ToolTypes {
  import opened Wrappers

  /** One tool of the catalogue. Optional fields are `Option`s: absent is `None`. */
  datatype Tool = Tool(
    id: string,
    name: string,
    description: string,
    category: string,
    icon: string,
    path: string,
    isComingSoon: Option<bool>,
    tags: Option<seq<string>>,
    featured: Option<bool>
  )

  /** A category: display metadata and the ordered tools it owns. */
  datatype ToolCategory = ToolCategory(
    id: string,
    name: string,
    icon: string,
    description: Option<string>,
    tools: seq<Tool>
  )

  /** What a tool card shows at its foot: a disabled "coming soon" button or a link to the tool. */
  datatype CardAction = Disabled | OpenLink(path: string)

  /** The state-dependent parts of a rendered tool card. */
  datatype CardView = CardView(featuredBadge: bool, comingSoonBadge: bool, tagChips: seq<string>, action: CardAction)

  /** Renders a tool card: an absent `featured` or `isComingSoon` reads as false, absent tags show no chips. */
  function RenderCard(t: Tool): (v: CardView)
    ensures v.featuredBadge <==> t.featured == Some(true)
    ensures v.comingSoonBadge <==> t.isComingSoon == Some(true)
    ensures v.action == Disabled <==> t.isComingSoon == Some(true)
    ensures v.action.OpenLink? ==> v.action.path == t.path
    ensures t.tags.None? ==> v.tagChips == []
    ensures t.tags.Some? ==> v.tagChips == t.tags.value
  {
    var comingSoon := t.isComingSoon.GetOr(false);
    CardView(
      t.featured.GetOr(false),
      comingSoon,
      t.tags.GetOr([]),
      if comingSoon then Disabled else OpenLink(t.path))
  }
}

=== FILE: tools_page.dfy ===
/** The tool listing page: which list it loads for the search box, and the category filter
    applied on top of it. */
module ToolsPage {
  import opened Text
  import opened Sequences
  import opened ToolTypes
  import opened Catalogue

  /** The identifier of the filter button that shows every category. */
  const AllCategories: string := "all"

  /** Every category of `cats`, unchanged. */
  lemma {:induction false} SelectedFromSelf(cats: seq<ToolCategory>)
    ensures SelectedFrom(cats, cats)
    decreases |cats|
  {
    if |cats| > 0 {
      SubsequenceReflexive(cats[0].tools);
      SelectedFromSelf(cats[1..]);
    }
  }

  /** The list the page loads. A query that is blank after trimming loads the whole catalogue;
      any other query is searched as typed, without trimming. */
  function SourceList(data: seq<ToolCategory>, query: string): (r: seq<ToolCategory>)
    ensures SelectedFrom(r, data)
    ensures IsBlank(query) ==> r == data
    ensures !IsBlank(query) ==> forall i, t :: 0 <= i < |r| && t in r[i].tools ==> Relevant(t, query)
    ensures !IsBlank(query) ==> forall i :: 0 <= i < |r| ==> |r[i].tools| > 0
    ensures !IsBlank(query) ==> r == SearchTools(data, query)
    ensures forall i, t :: 0 <= i < |data| && t in data[i].tools && Relevant(t, query) ==>
      exists j :: 0 <= j < |r| && t in r[j].tools
  {
    if !IsBlank(query) then
      var r := SearchTools(data, query);
      assert forall i, t :: 0 <= i < |data| && t in data[i].tools && Relevant(t, query) ==>
        exists j :: 0 <= j < |r| && t in r[j].tools by {
        forall i, t | 0 <= i < |data| && t in data[i].tools && Relevant(t, query)
          ensures exists j :: 0 <= j < |r| && t in r[j].tools
        {
          SearchComplete(data, query, i, t);
        }
      }
      r
    else
      SelectedFromSelf(data);
      data
  }

  /** `filteredCategories`: every category for "all", otherwise exactly the categories whose
      id is the selected one, whole and in order. */
  function FilterByCategory(cats: seq<ToolCategory>, selected: string): (r: seq<ToolCategory>)
    ensures selected == AllCategories ==> r == cats
    ensures selected != AllCategories ==> forall i :: 0 <= i < |r| ==> r[i].id == selected
    ensures selected != AllCategories ==> IsSubsequence(r, cats)
    ensures selected != AllCategories ==> forall c :: c in cats && c.id == selected ==> c in r
    ensures selected != AllCategories ==>
      forall c :: multiset(r)[c] == if c.id == selected then multiset(cats)[c] else 0
  {
    if selected == AllCategories then cats else KeepCategory(cats, selected)
  }

  /** `categories.filter(cat => cat.id === selected)`. */
  function KeepCategory(cats: seq<ToolCategory>, selected: string): (r: seq<ToolCategory>)
    ensures forall i :: 0 <= i < |r| ==> r[i].id == selected
    ensures IsSubsequence(r, cats)
    ensures forall c :: c in cats && c.id == selected ==> c in r
    ensures forall c :: multiset(r)[c] == if c.id == selected then multiset(cats)[c] else 0
  {
    if |cats| == 0 then []
    else
      var rest := KeepCategory(cats[1..], selected);
      assert cats == [cats[0]] + cats[1..];
      if cats[0].id == selected then
        assert ([cats[0]] + rest)[1..] == rest;
        [cats[0]] + rest
      else rest
  }

  /** The category filter only keeps or drops whole categories: every displayed category is a
      source category with its tool list untouched. */
  lemma FilterKeepsWholeCategories(cats: seq<ToolCategory>, selected: string)
    ensures forall c :: c in FilterByCategory(cats, selected) ==> c in cats
  {
    var r := FilterByCategory(cats, selected);
    if selected != AllCategories {
      SubsequenceContained(r, cats);
    }
  }

  /** What the page displays once loading has finished. */
  function Displayed(data: seq<ToolCategory>, query: string, selected: string): seq<ToolCategory> {
    FilterByCategory(SourceList(data, query), selected)
  }

  /** The "no tools found" panel appears after loading exactly when nothing is displayed. */
  predicate ShowsEmptyState(loading: bool, displayed: seq<ToolCategory>) {
    !loading && |displayed| == 0
  }

  /** A selected category that is not in the loaded list (for instance one a search dropped)
      leaves the page empty, and the empty panel is shown; a selected category that is in the
      list is displayed. */
  lemma EmptyExactlyWhenSelectionAbsent(data: seq<ToolCategory>, query: string, selected: string)
    requires selected != AllCategories
    ensures ShowsEmptyState(false, Displayed(data, query, selected))
      <==> forall i :: 0 <= i < |SourceList(data, query)| ==> SourceList(data, query)[i].id != selected
  {
    var src := SourceList(data, query);
    var r := Displayed(data, query, selected);
    SubsequenceContained(r, src);
    if |r| > 0 {
      assert r[0] in src;
    }
  }

  /** The search runs on the untrimmed query: a leading space makes "json" miss the JSON
      formatter, although the trimmed query is not blank. */
  lemma UntrimmedQuerySearched()
    ensures ToolMatches(MockData[0].tools[0], "json")
    ensures !IsBlank(" json")
    ensures !ToolMatches(MockData[0].tools[0], " json")
  {
    var t := MockData[0].tools[0];
    assert Lower("JSON格式化") == "json格式化";
    assert OccursAt(Lower(t.name), Lower("json"), 0);
    assert Lower(" json") == " json";
    assert !IsWhitespace('j');
    MissingFirstChar(Lower(t.name), " json");
    MissingFirstChar(Lower(t.description), " json");
    var tags := t.tags.value;
    forall i | 0 <= i < |tags|
      ensures !Contains(Lower(tags[i]), " json")
    {
      MissingFirstChar(Lower(tags[i]), " json");
    }
  }
}

=== FILE: wrappers.dfy ===
/** Optional values and success/failure outcomes shared by the whole model. */
module Wrappers {

  /** A value that may be absent: an optional field, or a lookup that found nothing. */
  datatype Option<+T> = None | Some(value: T) {

    /** Reads an optional field, falling back to `default` when it is absent. */
    function GetOr(default: T): T {
      if Some? then value else default
    }
  }

  /** The outcome of an operation that either resolves with a value or rejects with a message. */
  datatype Result<+R, +E> = Success(value: R) | Failure(error: E)
}
